=== FILE: README.md ===
# Esp32Pass core in Dafny

Esp32Pass is a password manager for the ESP32. It is driven over a serial
console and keeps its data on the SPIFFS flash file system. Its whole logic
is in `src/main.cpp`. This project models three parts of that file and
proves properties of each.

- **The PIN gate** (`PinGate`, `Hex`). `/pin.txt` holds `hashPin(pin)`: the
  SHA-256 digest of the PIN written as 64 lowercase hex digits (`%02x` per
  byte). `isPinSet` tests whether the file exists. `createPin` writes the
  rendering, and `verifyPin` compares the whole file with the rendering of
  the candidate PIN. SHA-256 itself is a parameter, an arbitrary function
  from bytes to 32 bytes.
- **The credential store** (`Document`, `Storage`, `CredentialStore`).
  `/passwords.json` is one JSON object mapping password names to secrets.
  ArduinoJson keeps its members in insertion order, and looks up, replaces
  and removes by the first member whose key matches. The model keeps that
  behaviour: a document is a sequence of `Entry(name, secret)`, and `Find`,
  `Get`, `Set` and `Remove` act on the first match.
  - The file is `Absent`, `Stored(doc)` or `Corrupt`.
  - Opening for reading can fail.
  - A document deserializes only if it fits the memory pool the caller
    chose. That is 1024 bytes for the existence probe, get, delete and list,
    and 131072 bytes for save and the storage statistics.
  - Opening for writing truncates the file. The write can then fail to open,
    succeed, or stop after some bytes, and a cut-short write leaves a
    `Corrupt` file.
  - Every store operation is a pure function from the file before to its
    outcome and the file after: `isPasswordExists`, `savePassword` (its
    eight error messages as `SaveError`), `getPasswordFromStorage`,
    `deletePassword`, the enumeration of `listPasswords`, and the integer
    counters of `showStorageInfo`.
- **The session** (`Session`). `loop` is a state machine over the PIN file,
  the credential file, the static `authenticated` and the global
  `firstAuthenticated`.
  - `Step` is one pass of `loop`. It consumes the command line plus the one
    or two lines its dialog reads, and names the message the pass ends with
    as a `Reply`.
  - `Run` folds `Step` over a finite input. A dialog that waits for a line
    that never comes ends the run.

Strings are byte sequences, because every limit in the source is a
`String::length()` byte count. Command names are compared as exact byte
strings.

Behaviours of the code that the model states as lemmas:

- The create dialog prints its success message whatever `savePassword` did
  (`CreateAnnouncesSuccessRegardless`).
- No minimum name length is enforced, so the empty name is saved like any
  other (`EmptyNameAccepted`).
- A stored empty secret is reported as "not found" (`EmptySecretShowsNotFound`).
- The duplicate probe reads into the 1024-byte pool, while the save reads
  into the 131072-byte pool. A document that fits only the large pool hides
  an existing key from the probe, and the save then overwrites that key
  instead of refusing (`SaveOverwritesAfterMissedProbe`).
- When `/passwords.json` exists but cannot be opened, `savePassword` starts
  from an empty document, and its rewrite drops every earlier member
  (`SaveReplacesUnopenedDocument`).
- `deletePassword` reports false after opening the file for writing when
  `serializeJson` writes nothing. The file is truncated by then, so a false
  delete does not always leave the document unchanged
  (`DeleteFailureLeavesFile` names the only exception). Likewise, a
  `savePassword` that ends in "Failed to write file" leaves an unreadable
  file, and every other rejection leaves the file as it was.
- A `createPin` write that stops short leaves a PIN file that no PIN
  verifies (`ShortPinWriteLocksOut`).

## Model

| member | source | states |
|---|---|---|
| Common.Written | src/main.cpp:38 | the bytes that reach an opened file never exceed those written, and all arrive exactly when the write is not cut below that length |
| Hex.HexDigit | src/main.cpp:21 | the digit `%x` prints for a nibble is one of `0-9a-f` and reads back as that nibble |
| Hex.ByteHex | src/main.cpp:20-21 | `%02x` of a byte is two hex digits, high nibble first, that read back as that byte |
| Hex.Render | src/main.cpp:17-23 | the rendering has two characters per digest byte |
| Hex.RenderDigits | src/main.cpp:17-23 | byte i becomes characters 2i (high nibble) and 2i+1 (low nibble), and every character is a lowercase hex digit |
| Hex.ParseSound | src/main.cpp:17-23 | any string the hex reader accepts is the rendering of the bytes it reads |
| Hex.ParseRender | src/main.cpp:17-23 | reading a rendering back gives exactly the bytes rendered |
| Hex.RenderInjective | src/main.cpp:17-23 | two byte strings with the same rendering are equal |
| Hex.RenderLoop | src/main.cpp:17-23 | the appending loop of `hashPin` builds a string of 2n characters that reads back as the digest |
| PinGate.HashPin | src/main.cpp:6-25 | the PIN hash is 64 lowercase hex digits from which the PIN's SHA-256 digest reads back |
| PinGate.IsPinSet | src/main.cpp:27-30 | a PIN is set exactly when /pin.txt exists |
| PinGate.CreatePin | src/main.cpp:32-40 | an unopenable PIN file is left as it was; otherwise it holds a prefix of the PIN hash, and the whole hash exactly when the write is not cut short |
| PinGate.VerifyPin | src/main.cpp:42-50 | a PIN verifies only if the PIN file exists and can be opened |
| PinGate.VerifyMeansDigestMatch | src/main.cpp:42-50 | a PIN verifies iff the file opens and holds 64 hex digits that read back as the PIN's digest; two PINs accepted by one file have the same digest |
| PinGate.CreateThenVerify | src/main.cpp:32-50 | after a complete `createPin(p)`, `verifyPin(p)` is true |
| PinGate.ShortPinWriteLocksOut | src/main.cpp:32-50 | a PIN write cut short leaves the PIN set, yet no PIN verifies against it |
| Document.Find | src/main.cpp:64 | the lookup position is the first member with that key, and no earlier member has it |
| Document.HasMeansMember | src/main.cpp:64 | `containsKey` is true iff some member carries the key |
| Document.GetMeansMember | src/main.cpp:157-159 | with distinct keys, `doc[name]` gives a secret iff that member is in the document |
| Document.SetReads | src/main.cpp:115 | after `doc[name] = secret` the key reads back as `secret` and every other key reads as before |
| Document.SetShape | src/main.cpp:115 | assigning a present key keeps the keys and their order; an absent key is appended last; nothing else is added and keys stay distinct |
| Document.RemoveShape | src/main.cpp:181 | `doc.remove(name)` drops only the first member with that key, keeps the others in order, and leaves a document without the key unchanged |
| Document.RemoveKeepsDistinct | src/main.cpp:181 | removing a member keeps keys distinct |
| Document.RemoveReads | src/main.cpp:181 | with distinct keys the removed key is gone and every other key reads as before |
| Document.Listing | src/main.cpp:222-236 | listing line i carries the number i+1 and the i-th key in document order |
| Document.CountSecrets | src/main.cpp:261-266 | the counting loop gives the number of members and the sum of the secrets' byte lengths |
| Document.SecretBytesAppend | src/main.cpp:262-266 | the secret total of two documents joined is the sum of their totals |
| Document.SecretBytesSet | src/main.cpp:115 | assigning a key changes the secret total by the new secret's length, less the length of the secret it replaces |
| Document.SecretBytesRemove | src/main.cpp:181 | removing a present key lowers the secret total by exactly that member's secret length |
| Storage.Read | src/main.cpp:54-63 | a document loads iff the file is stored, opens and fits the pool; an absent file is told apart from an unopenable one |
| Storage.WriteDoc | src/main.cpp:125-135 | an unopened file is unchanged; an opened one holds the document exactly when every serialized byte reached it, and is unreadable otherwise |
| CredentialStore.PasswordExists | src/main.cpp:52-65 | a key is reported iff the file is stored, opens, fits the 1024-byte pool and holds the key |
| CredentialStore.SaveBase | src/main.cpp:90-104 | save starts from the stored document, or from an empty one when the file is absent or does not open; an unparsable file is an error |
| CredentialStore.SavePassword | src/main.cpp:67-136 | a 33-byte name is rejected and a 32-byte one passes the name check; likewise 8001 and 8000 for the secret (that such a save is then stored is `SaveSucceeds`). Every rejection but a failed write leaves the file unchanged. A save happens only after a negative probe, and it stores the secret under the key within 1000 members and 102400 bytes |
| CredentialStore.SaveRejectionOrder | src/main.cpp:67-136 | each rejection means every earlier check passed: name, secret, duplicate, unreadable file, count, size, open; "Failed to write file" holds iff every check passed, the file opened and nothing was written; the save succeeds iff every check passed, the file opened and some bytes were written |
| CredentialStore.SaveSucceeds | src/main.cpp:106-135 | a save whose checks all pass and whose write delivers every byte is saved, and the file holds the base document with the secret assigned to the key |
| CredentialStore.SaveAppendsEntry | src/main.cpp:106-135 | a successful save into a stored document that opens and lacks the key appends exactly the new member, keeps every other member and value, and stays within 1000 members |
| CredentialStore.SaveIntoAbsentFile | src/main.cpp:90-135 | saving into an absent file leaves a document holding only the new member |
| CredentialStore.EmptyNameAccepted | src/main.cpp:67-136 | the empty name is saved, and reads back, like any other |
| CredentialStore.SaveThenGet | src/main.cpp:67-160 | after a complete save, a get that loads the file returns exactly the saved secret |
| CredentialStore.DuplicateKeepsValue | src/main.cpp:84-88 | a key the probe sees is refused, and the stored value stays readable |
| CredentialStore.CapacityReached | src/main.cpp:106-113 | with 1000 members, a save the existence probe lets through is refused with the file unchanged |
| CredentialStore.SaveOverwritesAfterMissedProbe | src/main.cpp:52-115 | a document too big for the probe's pool but not the save's lets a save overwrite an existing key |
| CredentialStore.SaveReplacesUnopenedDocument | src/main.cpp:90-104 | when the stored file cannot be opened, the save replaces the whole document with the one new member |
| CredentialStore.SavePreservesWellFormed | src/main.cpp:67-136 | every save keeps distinct keys, at most 1000 members and the length limits |
| CredentialStore.GetPassword | src/main.cpp:138-160 | a get returns the stored value for a present key, and "" for a missing key and for a file that does not open or does not load; "No passwords found" iff the file cannot be opened, "Failed to read" iff it opens but does not load; a non-empty result is the stored value |
| CredentialStore.DeletePassword | src/main.cpp:162-195 | a delete returns true iff the document loaded, held the key, and the rewrite reported a non-zero byte count; a changed file is either the document minus the key or unreadable, and it is the document minus the key whenever a successful delete's write delivered every byte |
| CredentialStore.DeleteRemovesOnlyThatKey | src/main.cpp:178-194 | a successful delete removes exactly that key, keeps the other keys, values and order, and lowers the count by one |
| CredentialStore.DeleteThenGet | src/main.cpp:138-195 | after a successful delete, getting the key returns "" |
| CredentialStore.DeleteFailureLeavesFile | src/main.cpp:162-195 | a false delete leaves the file as it was, unless its truncating rewrite failed on a document holding the key |
| CredentialStore.DeletePreservesWellFormed | src/main.cpp:162-195 | every delete keeps distinct keys, at most 1000 members and the length limits |
| CredentialStore.ListPasswords | src/main.cpp:197-238 | "[Empty List]" iff there is no file, "could not open" iff it does not open, and a listing iff it loads; the listing numbers the keys 1..n in document order |
| CredentialStore.ShowStorageInfo | src/main.cpp:246-273 | the count is the number of keys and the total is the sum of secret lengths of a document that loads into the large pool; both are 0 otherwise |
| Session.Command | src/main.cpp:392-465 | a command pass uses one to three lines and answers with a command reply; it never changes the PIN file or either flag |
| Session.Step | src/main.cpp:340-468 | a completed pass uses at least one and at most the available lines |
| Session.IsCommand | src/main.cpp:351 | a line is one of the five command names, compared as exact bytes |
| Session.Boot | src/main.cpp:339-342 | the first pass starts unauthenticated, with `firstAuthenticated` true |
| Session.Run | src/main.cpp:340-468 | repeated passes of `loop` over a finite input; every pass consumes at least one line, so a run gives at most one reply per line |
| Session.NoPinTurnsLineIntoPin | src/main.cpp:349-364 | with no PIN file, the five command names are refused and change nothing; any other line becomes the PIN, which then verifies after a write that delivers all 64 bytes; `firstAuthenticated` is untouched |
| Session.OneLineCommands | src/main.cpp:453-465 | with the session unlocked, `list` answers with the listing and `info` with the counters, any non-command line is answered "Invalid command!", and none of them changes the state |
| Session.CreateNameTaken | src/main.cpp:392-404 | a `create` dialog whose own probe finds the name ends after the name line with "Password name already exists!" and changes nothing |
| Session.AuthenticationNeedsVerifiedPin | src/main.cpp:366-373 | `authenticated` becomes true only in a pass whose line verified against a set PIN |
| Session.CommandsNeedSession | src/main.cpp:349-392 | a command reply or a change to the credential file requires a set PIN and an authenticated session |
| Session.AuthenticatedStaysSet | src/main.cpp:340-468 | once authenticated, every run stays authenticated |
| Session.PinNeverChangesOnceSet | src/main.cpp:340-468 | once the PIN file exists, no run rewrites it |
| Session.StoreUntouchedUntilAuthenticated | src/main.cpp:340-468 | a run that never authenticates leaves the credential file as it was |
| Session.FailedPinAttempt | src/main.cpp:366-389 | a line that does not verify against a set PIN leaves the session locked, shows the welcome banner if `firstAuthenticated` was still true and "Invalid PIN" otherwise, and clears the flag |
| Session.WelcomeAtMostOnce | src/main.cpp:376-387 | a run shows the welcome banner exactly once if it clears `firstAuthenticated`, and never otherwise; nothing sets the flag again |
| Session.RunPreservesWellFormed | src/main.cpp:340-468 | every run keeps a well-formed credential file well-formed |
| Session.CreateAnnouncesSuccessRegardless | src/main.cpp:392-416 | the create dialog ends with the success message even when the store rejects a 33-byte name |
| Session.EmptySecretShowsNotFound | src/main.cpp:417-435 | a stored empty secret is reported as "Password not found" |
| Session.FirstSessionWalkthrough | src/main.cpp:340-468 | a first session from an empty device creates the PIN, unlocks, saves, reads, deletes and then misses the secret, with those replies in order |

## Left out

- Serial I/O: prompts, banners, the command menu and the separator line
  (`showWelcomeMessage`, `showCommands`, `setup`'s messages). Each pass names
  its final message as a `Reply` instead.
- Line transport: `readStringUntil('\n')`, `trim()` and the `delay(100)`
  polling. A line is given already trimmed, and an input that ends inside a
  dialog blocks the run, as the busy-wait would.
- SPIFFS mounting in `setup`, and the `totalBytes`/`usedBytes`/`freeBytes`
  figures of `showStorageInfo`. These come from the file system, and
  `freeBytes` is a `size_t` subtraction over them.
- The average secret length and the usage percentage. Both are floating
  point.
- The SHA-256 computation (the mbedTLS calls). It is a parameter of type
  `Bytes -> Digest`, and nothing else is assumed about it.
- JSON text, parsing, serialization and memory pools. `Json` supplies the
  serialized size of a document and whether it fits each pool, and a file
  that does not parse is `Corrupt`. Documents whose root is not an object,
  or whose values are not strings, are not modelled.
- NUL bytes. An Arduino `String` can hold them, but `c_str()` and
  `as<const char *>()` stop at the first one. That truncation is not
  modelled.
- Integer widths: the `int` counter of `listPasswords` and the `size_t`
  totals are unbounded, because the store never exceeds 1000 members or
  102400 bytes.
- Read faults: each pass has one `readOpens` flag, shared by every read it
  makes. The source could see different results for two opens in the same
  pass.
- `isPinSet` probes `/pin.txt` on every pass, so a PIN file that vanishes
  mid-session sends `loop` back to PIN creation. The model keeps the PIN
  file in the state, and nothing but `createPin` changes it.
- CredentialStore.SavePassword: "every rejection leaves the document
  unchanged" holds except for "Failed to write file". That path has already
  truncated the file, so the contract states a `Corrupt` file there.
- CredentialStore.DeletePassword: "on false the document is unchanged"
  holds except when the truncating rewrite fails. The contract and
  `DeleteFailureLeavesFile` state that exception.
- CredentialStore.GetPassword: an empty result conflates a missing file, an
  unreadable file and a missing key. The contract distinguishes them only
  through the printed diagnostic.

=== FILE: common.dfy ===
/** Shared vocabulary of the model: bytes as an Arduino `String` holds them,
    optional values, and the ways a write to the flash file system can end. */
module Common {

  /** One byte of an Arduino `String`. Every length in the model is
      `String::length()`, which counts these bytes. */
  type byte = x: int | 0 <= x < 256

  type Bytes = seq<byte>

  datatype Option<+T> = None | Some(value: T)

  /** How one `SPIFFS.open(path, "w")` followed by a write ends. Either the
      file cannot be opened (it is then left as it was), or it is opened —
      which truncates it — and the file system accepts every byte (`WriteOk`)
      or only the first `limit` bytes (`Stops`). */
  datatype WriteFault = WriteOk | OpenFails | Stops(limit: nat)

  /** The number of bytes that reach an opened file when `len` are written. */
  function Written(w: WriteFault, len: nat): (n: nat)
    requires !w.OpenFails?
    ensures n <= len
    ensures n == len <==> (w.WriteOk? || w.limit >= len)
    ensures w.Stops? && w.limit < len ==> n == w.limit
  {
    if w.Stops? && w.limit < len then w.limit else len
  }

  /** What the environment decides for one pass of the main loop: whether
      files that exist can be opened for reading, and how the pass's write
      (if it makes one) ends. */
  datatype Faults = Faults(readOpens: bool, write: WriteFault)
}

=== FILE: credential_store.dfy ===
/** The credential store of src/main.cpp: every operation reads the whole
    document, works on it in memory and, if it changes it, writes it back.
    Each is a pure function from the file before to its outcome and the file
    after. */
module CredentialStore {
  import opened Common
  import opened Document
  import opened Storage

  const MaxNameLength: nat := 32
  const MaxSecretLength: nat := 8000
  const MaxEntries: nat := 1000
  const MaxDocumentBytes: nat := 102400

  /** The shape every write of `savePassword` keeps: distinct keys, at most
      1000 members, every key and value within its length limit. */
  predicate WellFormed(d: Doc)
  {
    && Distinct(d)
    && |d| <= MaxEntries
    && forall e :: e in d ==> |e.name| <= MaxNameLength && |e.secret| <= MaxSecretLength
  }

  predicate FileWellFormed(f: DocFile)
  {
    f.Stored? ==> WellFormed(f.doc)
  }

  // ------------------------------------------------------ isPasswordExists

  /** `isPasswordExists`: reads into the small pool; any failure answers
      false, so a key is reported only when it is really there, but can be
      missed when the document does not load. */
  function PasswordExists(json: Json, f: DocFile, opens: bool, name: Bytes): (r: bool)
    ensures r <==> f.Stored? && opens && json.fitsSmallPool(f.doc) && Has(f.doc, name)
  {
    match Read(json, f, opens, Small)
    case Loaded(d) => Has(d, name)
    case _ => false
  }

  // ---------------------------------------------------------- savePassword

  datatype SaveError =
    | NameTooLong     // "Password name too long"
    | SecretTooLong   // "Password too long"
    | AlreadyExists   // "Password name already exists!"
    | ReadFailed      // "Failed to read file"
    | TooMany         // "Maximum number of passwords (1000) reached"
    | StorageFull     // "Storage full"
    | CreateFailed    // "Failed to create file"
    | WriteFailed     // "Failed to write file"

  datatype SaveOutcome = Saved | Rejected(error: SaveError)

  /** The document `savePassword` adds to. When the file is absent, or exists
      but cannot be opened, the source skips the read and starts from an
      empty document; a file that opens but does not deserialize into the
      large pool gives `None`. */
  function SaveBase(json: Json, f: DocFile, opens: bool): (b: Option<Doc>)
    ensures b.None? <==> opens && (f.Corrupt? || (f.Stored? && !json.fitsLargePool(f.doc)))
    ensures f.Absent? || !opens ==> b == Some([])
    ensures f.Stored? && opens && json.fitsLargePool(f.doc) ==> b == Some(f.doc)
  {
    match Read(json, f, opens, Large)
    case Loaded(d) => Some(d)
    case ParseError => None
    case _ => Some([])
  }

  /** `savePassword`, with its checks in the source's order. */
  function SavePassword(json: Json, f: DocFile, name: Bytes, secret: Bytes, io: Faults)
    : (r: (SaveOutcome, DocFile))
    ensures r.0 == Rejected(NameTooLong) <==> |name| > MaxNameLength
    ensures r.0 == Rejected(SecretTooLong) <==> |name| <= MaxNameLength && |secret| > MaxSecretLength
    ensures r.0.Rejected? && r.0.error != WriteFailed ==> r.1 == f
    ensures r.0 == Rejected(WriteFailed) ==> r.1 == Corrupt
    ensures r.0.Saved? ==> !PasswordExists(json, f, io.readOpens, name)
    ensures r.0.Saved? && r.1 != Corrupt ==>
              && r.1.Stored?
              && Get(r.1.doc, name) == Some(secret)
              && |r.1.doc| <= MaxEntries
              && json.serializedSize(r.1.doc) <= MaxDocumentBytes
    ensures io.write.WriteOk? && r.0.Saved? ==> r.1.Stored?
  {
    if |name| > MaxNameLength then (Rejected(NameTooLong), f)
    else if |secret| > MaxSecretLength then (Rejected(SecretTooLong), f)
    else if PasswordExists(json, f, io.readOpens, name) then (Rejected(AlreadyExists), f)
    else
      match SaveBase(json, f, io.readOpens)
      case None => (Rejected(ReadFailed), f)
      case Some(base) =>
        if |base| >= MaxEntries then (Rejected(TooMany), f)
        else
          var next := Set(base, name, secret);
          SetReads(base, name, secret);
          if json.serializedSize(next) > MaxDocumentBytes then (Rejected(StorageFull), f)
          else
            match WriteDoc(json, f, next, io.write)
            case (NotOpened, f') => (Rejected(CreateFailed), f')
            case (NothingWritten, f') => (Rejected(WriteFailed), f')
            case (SomeWritten, f') => (Saved, f')
  }

  // ------------------------------------------------ getPasswordFromStorage

  /** The diagnostic `getPasswordFromStorage` prints before returning "". */
  datatype GetNote = Quiet | NoPasswordsFound | FailedToRead

  datatype Fetched = Fetched(note: GetNote, value: Bytes)

  /** The value stored under a key, or "" when there is none. */
  function ValueOr(d: Doc, name: Bytes): Bytes
  {
    match Get(d, name)
    case Some(v) => v
    case None => []
  }

  /** `getPasswordFromStorage`: the stored value of a present key; "" for a
      file that cannot be opened (absent included), one that does not load
      into the small pool, or a missing key. */
  function GetPassword(json: Json, f: DocFile, opens: bool, name: Bytes): (r: Fetched)
    ensures r.note == NoPasswordsFound <==> f.Absent? || !opens
    ensures r.note == FailedToRead <==> !f.Absent? && opens && !(f.Stored? && json.fitsSmallPool(f.doc))
    ensures f.Stored? && opens && json.fitsSmallPool(f.doc) ==> r.value == ValueOr(f.doc, name)
    ensures !(f.Stored? && opens && json.fitsSmallPool(f.doc)) ==> r.value == []
    ensures r.value != [] ==> f.Stored? && Get(f.doc, name) == Some(r.value)
  {
    match Read(json, f, opens, Small)
    case NoFile => Fetched(NoPasswordsFound, [])
    case CannotOpen => Fetched(NoPasswordsFound, [])
    case ParseError => Fetched(FailedToRead, [])
    case Loaded(d) => Fetched(Quiet, ValueOr(d, name))
  }

  // --------------------------------------------------------- deletePassword

  /** `deletePassword`: true when the document loaded into the small pool,
      held the key and `serializeJson` reported a non-zero byte count. */
  function DeletePassword(json: Json, f: DocFile, name: Bytes, io: Faults): (r: (bool, DocFile))
    ensures r.0 <==> && f.Stored? && io.readOpens && json.fitsSmallPool(f.doc) && Has(f.doc, name)
                     && !io.write.OpenFails?
                     && Written(io.write, json.serializedSize(Remove(f.doc, name))) > 0
    ensures r.1 != f ==> f.Stored? && (r.1 == Corrupt || r.1 == Stored(Remove(f.doc, name)))
    ensures !r.0 && r.1 != f ==> r.1 == Corrupt
    ensures r.0 ==>
              var size := json.serializedSize(Remove(f.doc, name));
              Written(io.write, size) == size ==> r.1 == Stored(Remove(f.doc, name))
  {
    match Read(json, f, io.readOpens, Small)
    case Loaded(d) =>
      if !Has(d, name) then (false, f)
      else (
        match WriteDoc(json, f, Remove(d, name), io.write)
        case (SomeWritten, f') => (true, f')
        case (_, f') => (false, f'))
    case _ => (false, f)
  }

  // ---------------------------------------------------------- listPasswords

  datatype ListOutcome =
    | EmptyList        // "[Empty List]": no file
    | CannotOpenFile   // "Could not open password file"
    | CannotRead       // "Could not read passwords"
    | Listed(lines: seq<Line>)

  /** `listPasswords`: the numbered keys of a document that loads into the small pool. */
  function ListPasswords(json: Json, f: DocFile, opens: bool): (r: ListOutcome)
    ensures r.EmptyList? <==> f.Absent?
    ensures r.CannotOpenFile? <==> !f.Absent? && !opens
    ensures r.Listed? <==> f.Stored? && opens && json.fitsSmallPool(f.doc)
    ensures r.Listed? ==>
              && |r.lines| == |f.doc|
              && forall i :: 0 <= i < |f.doc| ==> r.lines[i] == Line(i + 1, f.doc[i].name)
  {
    match Read(json, f, opens, Small)
    case NoFile => EmptyList
    case CannotOpen => CannotOpenFile
    case ParseError => CannotRead
    case Loaded(d) => Listed(Listing(d))
  }

  // -------------------------------------------------------- showStorageInfo

  /** The integer statistics `showStorageInfo` prints. */
  datatype Counters = Counters(entries: nat, secretBytes: nat)

  function StorageCounters(json: Json, f: DocFile, opens: bool): Counters
  {
    match Read(json, f, opens, Large)
    case Loaded(d) => Counters(|d|, SecretBytes(d))
    case _ => Counters(0, 0)
  }

  /** `showStorageInfo`'s counting: a document that loads into the large pool
      is counted member by member; anything else shows zeros. */
  method ShowStorageInfo(json: Json, f: DocFile, opens: bool) returns (c: Counters)
    ensures f.Stored? && opens && json.fitsLargePool(f.doc) ==>
              c.entries == |f.doc| && c.secretBytes == SecretBytes(f.doc)
    ensures !(f.Stored? && opens && json.fitsLargePool(f.doc)) ==> c == Counters(0, 0)
    // links the counting loop to the function the session dispatcher calls
    ensures c == StorageCounters(json, f, opens)
  {
    c := Counters(0, 0);
    if f.Stored? && opens && json.fitsLargePool(f.doc) {
      var count, total := CountSecrets(f.doc);
      c := Counters(count, total);
    }
  }

  // ---------------------------------------------------------------- lemmas

  /** The checks of `savePassword` run in a fixed order: each rejection
      means every earlier check passed and its own condition held. */
  lemma SaveRejectionOrder(json: Json, f: DocFile, name: Bytes, secret: Bytes, io: Faults)
    ensures var out := SavePassword(json, f, name, secret, io).0;
      && (out == Rejected(AlreadyExists) <==>
            |name| <= MaxNameLength && |secret| <= MaxSecretLength
            && PasswordExists(json, f, io.readOpens, name))
      && (out == Rejected(ReadFailed) <==>
            |name| <= MaxNameLength && |secret| <= MaxSecretLength
            && !PasswordExists(json, f, io.readOpens, name)
            && SaveBase(json, f, io.readOpens).None?)
      && (out == Rejected(TooMany) ==>
            !PasswordExists(json, f, io.readOpens, name)
            && SaveBase(json, f, io.readOpens).Some?
            && |SaveBase(json, f, io.readOpens).value| >= MaxEntries)
      && (out == Rejected(StorageFull) ==>
            var b := SaveBase(json, f, io.readOpens);
            && b.Some? && |b.value| < MaxEntries
            && json.serializedSize(Set(b.value, name, secret)) > MaxDocumentBytes)
      && (out == Rejected(CreateFailed) ==>
            var b := SaveBase(json, f, io.readOpens);
            && b.Some? && |b.value| < MaxEntries
            && json.serializedSize(Set(b.value, name, secret)) <= MaxDocumentBytes
            && io.write.OpenFails?)
      && (out == Rejected(WriteFailed) <==>
            var b := SaveBase(json, f, io.readOpens);
            && |name| <= MaxNameLength && |secret| <= MaxSecretLength
            && !PasswordExists(json, f, io.readOpens, name)
            && b.Some? && |b.value| < MaxEntries
            && json.serializedSize(Set(b.value, name, secret)) <= MaxDocumentBytes
            && !io.write.OpenFails?
            && Written(io.write, json.serializedSize(Set(b.value, name, secret))) == 0)
      && (out == Saved <==>
            var b := SaveBase(json, f, io.readOpens);
            && |name| <= MaxNameLength && |secret| <= MaxSecretLength
            && !PasswordExists(json, f, io.readOpens, name)
            && b.Some? && |b.value| < MaxEntries
            && json.serializedSize(Set(b.value, name, secret)) <= MaxDocumentBytes
            && !io.write.OpenFails?
            && Written(io.write, json.serializedSize(Set(b.value, name, secret))) > 0)
  {
  }

  /** A save whose checks all pass and whose write delivers every byte stores
      the document with the secret assigned to the key. */
  lemma SaveSucceeds(json: Json, f: DocFile, name: Bytes, secret: Bytes, io: Faults, b: Doc)
    requires |name| <= MaxNameLength && |secret| <= MaxSecretLength
    requires !PasswordExists(json, f, io.readOpens, name)
    requires SaveBase(json, f, io.readOpens) == Some(b) && |b| < MaxEntries
    requires json.serializedSize(Set(b, name, secret)) <= MaxDocumentBytes
    requires !io.write.OpenFails?
    requires Written(io.write, json.serializedSize(Set(b, name, secret))) == json.serializedSize(Set(b, name, secret))
    ensures SavePassword(json, f, name, secret, io) == (Saved, Stored(Set(b, name, secret)))
  {
  }

  /** A successful save into a stored document that lacks the key appends
      exactly the new member: every earlier member stays, in order, the count
      grows by one and never passes 1000, and the secret total grows by the
      new secret's length. */
  lemma SaveAppendsEntry(json: Json, d: Doc, name: Bytes, secret: Bytes, io: Faults)
    requires io.readOpens && !Has(d, name)
    requires SavePassword(json, Stored(d), name, secret, io).0 == Saved
    requires SavePassword(json, Stored(d), name, secret, io).1.Stored?
    ensures var d' := SavePassword(json, Stored(d), name, secret, io).1.doc;
      && d' == d + [Entry(name, secret)]
      && |d'| == |d| + 1 <= MaxEntries
      && (forall k :: k != name ==> Get(d', k) == Get(d, k))
      && SecretBytes(d') == SecretBytes(d) + |secret|
  {
    var r := SavePassword(json, Stored(d), name, secret, io);
    assert !Has(d, name);
    assert SaveBase(json, Stored(d), io.readOpens) == Some(d);
    SetReads(d, name, secret);
    SetShape(d, name, secret);
    SecretBytesSet(d, name, secret);
    assert WriteDoc(json, Stored(d), Set(d, name, secret), io.write).1 == r.1;
  }

  /** Saving into an absent file leaves a document holding just the new member. */
  lemma SaveIntoAbsentFile(json: Json, name: Bytes, secret: Bytes, io: Faults)
    requires |name| <= MaxNameLength && |secret| <= MaxSecretLength
    requires json.serializedSize([Entry(name, secret)]) <= MaxDocumentBytes
    requires io.write.WriteOk?
    ensures SavePassword(json, Absent, name, secret, io) == (Saved, Stored([Entry(name, secret)]))
  {
    assert Set([], name, secret) == [Entry(name, secret)];
  }

  /** No minimum name length: the empty name is saved like any other. */
  lemma EmptyNameAccepted(json: Json, secret: Bytes, io: Faults)
    requires |secret| <= MaxSecretLength
    requires json.serializedSize([Entry([], secret)]) <= MaxDocumentBytes
    requires io.write.WriteOk?
    ensures SavePassword(json, Absent, [], secret, io).0 == Saved
    ensures GetPassword(json, SavePassword(json, Absent, [], secret, io).1, true, []).value == secret
              || !json.fitsSmallPool([Entry([], secret)])
  {
    SaveIntoAbsentFile(json, [], secret, io);
  }

  /** Round trip: after a save that wrote the whole document, a read that
      loads it returns exactly the saved secret. */
  lemma SaveThenGet(json: Json, f: DocFile, name: Bytes, secret: Bytes, io: Faults, opens: bool)
    requires SavePassword(json, f, name, secret, io).0 == Saved
    requires io.write.WriteOk?
    requires opens && json.fitsSmallPool(SavePassword(json, f, name, secret, io).1.doc)
    ensures GetPassword(json, SavePassword(json, f, name, secret, io).1, opens, name).value == secret
  {
  }

  /** A save under a key the probe sees is rejected and leaves the stored
      value readable as before. */
  lemma DuplicateKeepsValue(json: Json, d: Doc, name: Bytes, secret: Bytes, io: Faults)
    requires io.readOpens && json.fitsSmallPool(d) && Has(d, name)
    requires |name| <= MaxNameLength && |secret| <= MaxSecretLength
    ensures SavePassword(json, Stored(d), name, secret, io) == (Rejected(AlreadyExists), Stored(d))
    ensures GetPassword(json, Stored(d), true, name).value == d[Find(d, name)].secret
  {
  }

  /** With 1000 members stored, a save the probe lets through is refused and
      changes nothing. (A document that large does not fit the probe's pool,
      so in practice the probe always lets it through.) */
  lemma CapacityReached(json: Json, d: Doc, name: Bytes, secret: Bytes, io: Faults)
    requires |d| == MaxEntries && !PasswordExists(json, Stored(d), io.readOpens, name)
    requires io.readOpens && json.fitsLargePool(d)
    requires |name| <= MaxNameLength && |secret| <= MaxSecretLength
    ensures SavePassword(json, Stored(d), name, secret, io) == (Rejected(TooMany), Stored(d))
  {
  }

  /** When the document is too big for the probe's small pool but fits the
      large one, the probe misses an existing key and the save overwrites
      that key's value instead of refusing. */
  lemma SaveOverwritesAfterMissedProbe(json: Json, d: Doc, name: Bytes, secret: Bytes, io: Faults)
    requires io.readOpens && !json.fitsSmallPool(d) && json.fitsLargePool(d)
    requires Has(d, name) && |d| < MaxEntries
    requires |name| <= MaxNameLength && |secret| <= MaxSecretLength
    requires json.serializedSize(Set(d, name, secret)) <= MaxDocumentBytes
    requires io.write.WriteOk?
    ensures SavePassword(json, Stored(d), name, secret, io) == (Saved, Stored(Set(d, name, secret)))
    ensures Get(Set(d, name, secret), name) == Some(secret)
    ensures |Set(d, name, secret)| == |d|
  {
    SetReads(d, name, secret);
    SetShape(d, name, secret);
  }

  /** When the stored file exists but cannot be opened, the save starts from
      an empty document and the rewrite drops every earlier member. */
  lemma SaveReplacesUnopenedDocument(json: Json, d: Doc, name: Bytes, secret: Bytes, io: Faults)
    requires !io.readOpens && io.write.WriteOk?
    requires |name| <= MaxNameLength && |secret| <= MaxSecretLength
    requires json.serializedSize([Entry(name, secret)]) <= MaxDocumentBytes
    ensures SavePassword(json, Stored(d), name, secret, io) == (Saved, Stored([Entry(name, secret)]))
  {
    assert Set([], name, secret) == [Entry(name, secret)];
  }

  /** Every save keeps a well-formed file well-formed. */
  lemma SavePreservesWellFormed(json: Json, f: DocFile, name: Bytes, secret: Bytes, io: Faults)
    requires FileWellFormed(f)
    ensures FileWellFormed(SavePassword(json, f, name, secret, io).1)
  {
    var r := SavePassword(json, f, name, secret, io);
    if r.1.Stored? && r.1 != f {
      var b := SaveBase(json, f, io.readOpens);
      assert b.Some?;
      assert WellFormed(b.value);
      SetShape(b.value, name, secret);
      assert r.1.doc == Set(b.value, name, secret);
    }
  }

  /** A successful delete with a complete rewrite removes exactly that key:
      the others keep their values and their order, and the count and the
      secret total drop by that one member. */
  lemma DeleteRemovesOnlyThatKey(json: Json, d: Doc, name: Bytes, io: Faults)
    requires Distinct(d)
    requires DeletePassword(json, Stored(d), name, io).0
    requires DeletePassword(json, Stored(d), name, io).1.Stored?
    ensures var d' := DeletePassword(json, Stored(d), name, io).1.doc;
      && !Has(d', name)
      && (forall k :: k != name ==> Get(d', k) == Get(d, k))
      && Names(d') == Names(d)[..Find(d, name)] + Names(d)[Find(d, name) + 1..]
      && |d'| == |d| - 1
      && SecretBytes(d') + |d[Find(d, name)].secret| == SecretBytes(d)
  {
    RemoveShape(d, name);
    RemoveReads(d, name);
    SecretBytesRemove(d, name);
  }

  /** Delete then get: once the key is deleted, reading it finds nothing. */
  lemma DeleteThenGet(json: Json, d: Doc, name: Bytes, io: Faults, opens: bool)
    requires Distinct(d)
    requires DeletePassword(json, Stored(d), name, io).0
    requires io.write.WriteOk?
    ensures GetPassword(json, DeletePassword(json, Stored(d), name, io).1, opens, name).value == []
  {
    RemoveReads(d, name);
  }

  /** A delete that reports false changes nothing unless its own truncating
      rewrite failed, which leaves an unreadable file. */
  lemma DeleteFailureLeavesFile(json: Json, f: DocFile, name: Bytes, io: Faults)
    requires !DeletePassword(json, f, name, io).0
    ensures var f' := DeletePassword(json, f, name, io).1;
      f' == f || (f' == Corrupt && !io.write.OpenFails? && f.Stored? && Has(f.doc, name))
  {
  }

  /** Every delete keeps a well-formed file well-formed. */
  lemma DeletePreservesWellFormed(json: Json, f: DocFile, name: Bytes, io: Faults)
    requires FileWellFormed(f)
    ensures FileWellFormed(DeletePassword(json, f, name, io).1)
  {
    if f.Stored? {
      RemoveShape(f.doc, name);
      RemoveKeepsDistinct(f.doc, name);
    }
  }
}

=== FILE: document.dfy ===
/** The credential document: the JSON object held in /passwords.json, as
    ArduinoJson keeps it in memory — members in insertion order, looked up,
    replaced and removed by the first member whose key matches. */
module Document {
  import opened Common

  datatype Entry = Entry(name: Bytes, secret: Bytes)

  type Doc = seq<Entry>

  /** Position of the first member whose key is `name`, or `|d|` if there is none. */
  function Find(d: Doc, name: Bytes): (i: nat)
    ensures i <= |d|
    ensures i < |d| ==> d[i].name == name
    ensures forall j :: 0 <= j < i ==> d[j].name != name
  {
    if |d| == 0 then 0
    else if d[0].name == name then 0
    else 1 + Find(d[1..], name)
  }

  /** `doc.containsKey(name)`. */
  predicate Has(d: Doc, name: Bytes)
  {
    Find(d, name) < |d|
  }

  /** `doc[name]`: the value of the first member with that key. */
  function Get(d: Doc, name: Bytes): Option<Bytes>
  {
    var i := Find(d, name);
    if i < |d| then Some(d[i].secret) else None
  }

  /** `doc[name] = secret`: overwrites the first member with that key in
      place, or appends a new member when there is none. */
  function Set(d: Doc, name: Bytes, secret: Bytes): Doc
  {
    var i := Find(d, name);
    if i < |d| then d[i := Entry(name, secret)] else d + [Entry(name, secret)]
  }

  /** `doc.remove(name)`: drops the first member with that key. */
  function Remove(d: Doc, name: Bytes): Doc
  {
    var i := Find(d, name);
    if i < |d| then d[..i] + d[i + 1..] else d
  }

  /** The keys in document order, as `for (JsonPair pair : obj)` visits them. */
  function Names(d: Doc): (ns: seq<Bytes>)
    ensures |ns| == |d|
  {
    seq(|d|, i requires 0 <= i < |d| => d[i].name)
  }

  /** No key occurs twice. */
  predicate Distinct(d: Doc)
  {
    forall i, j :: 0 <= i < j < |d| ==> d[i].name != d[j].name
  }

  /** Sum of the byte lengths of all secrets, accumulated in document order. */
  function SecretBytes(d: Doc): nat
  {
    if |d| == 0 then 0 else SecretBytes(d[..|d| - 1]) + |d[|d| - 1].secret|
  }

  /** One line of the listing: the running number and the key. */
  datatype Line = Line(number: nat, name: Bytes)

  /** The lines `listPasswords` prints: the keys numbered 1..n in document order. */
  function Listing(d: Doc): (ls: seq<Line>)
    ensures |ls| == |d|
    ensures forall i :: 0 <= i < |d| ==> ls[i] == Line(i + 1, d[i].name)
  {
    if |d| == 0 then [] else Listing(d[..|d| - 1]) + [Line(|d|, d[|d| - 1].name)]
  }

  /** The counting loop of `showStorageInfo`: one per member, plus the byte
      length of each value. */
  method CountSecrets(d: Doc) returns (count: nat, total: nat)
    ensures count == |d|
    ensures total == SecretBytes(d)
  {
    count, total := 0, 0;
    for i := 0 to |d|
      invariant count == i
      invariant total == SecretBytes(d[..i])
    {
      assert d[..i + 1][..i] == d[..i];
      count, total := count + 1, total + |d[i].secret|;
    }
    assert d[..|d|] == d;
  }

  // ---------------------------------------------------------------- lemmas

  /** `Find` is determined by the keys alone: two documents with the same
      keys at the same positions find every key at the same place. */
  lemma FindByNames(d: Doc, e: Doc, name: Bytes)
    requires |d| == |e|
    requires forall j :: 0 <= j < |d| ==> d[j].name == e[j].name
    ensures Find(d, name) == Find(e, name)
  {
  }

  /** A key is present exactly when some member carries it. */
  lemma HasMeansMember(d: Doc, name: Bytes)
    ensures Has(d, name) <==> exists j :: 0 <= j < |d| && d[j].name == name
  {
    if j :| 0 <= j < |d| && d[j].name == name {
      assert Find(d, name) <= j;
    }
  }

  /** With distinct keys, `Get` answers exactly the members of the document. */
  lemma GetMeansMember(d: Doc, name: Bytes, secret: Bytes)
    requires Distinct(d)
    ensures Get(d, name) == Some(secret) <==> Entry(name, secret) in d
  {
    if Entry(name, secret) in d {
      var j :| 0 <= j < |d| && d[j] == Entry(name, secret);
      assert Find(d, name) == j;
    }
  }

  /** After `doc[name] = secret` the key reads back as `secret` and every
      other key reads as before. */
  lemma SetReads(d: Doc, name: Bytes, secret: Bytes)
    ensures Get(Set(d, name, secret), name) == Some(secret)
    ensures forall k :: k != name ==> Get(Set(d, name, secret), k) == Get(d, k)
  {
    var r := Set(d, name, secret);
    var i := Find(d, name);
    if i < |d| {
      forall k | k != name ensures Get(r, k) == Get(d, k) {
        FindByNames(d, r, k);
      }
      FindByNames(d, r, name);
    } else {
      forall k | k != name ensures Get(r, k) == Get(d, k) {
        var f := Find(d, k);
        if f < |d| {
          assert r[f].name == k;
        } else {
          assert Find(r, k) == |r|;
        }
      }
      assert r[|d|].name == name;
    }
  }

  /** `doc[name] = secret` on a present key keeps the keys and their order;
      on an absent key it appends one member at the end. It adds no member
      other than the new one, and keeps keys distinct. */
  lemma SetShape(d: Doc, name: Bytes, secret: Bytes)
    ensures Has(d, name) ==> |Set(d, name, secret)| == |d|
    ensures Has(d, name) ==> Names(Set(d, name, secret)) == Names(d)
    ensures !Has(d, name) ==> Set(d, name, secret) == d + [Entry(name, secret)]
    ensures forall e :: e in Set(d, name, secret) ==> e in d || e == Entry(name, secret)
    ensures Distinct(d) ==> Distinct(Set(d, name, secret))
  {
    var r := Set(d, name, secret);
    if Has(d, name) {
      assert Names(r) == Names(d);
    }
  }

  /** After `doc.remove(name)` the other members stay, in their order, and
      no member is added. */
  lemma RemoveShape(d: Doc, name: Bytes)
    ensures !Has(d, name) ==> Remove(d, name) == d
    ensures Has(d, name) ==> |Remove(d, name)| == |d| - 1
    ensures Has(d, name) ==>
              Names(Remove(d, name)) == Names(d)[..Find(d, name)] + Names(d)[Find(d, name) + 1..]
    ensures forall e :: e in Remove(d, name) ==> e in d
  {
    var i := Find(d, name);
    if i < |d| {
      RemoveNames(d, i);
      forall e | e in Remove(d, name) ensures e in d {
        assert e in d[..i] || e in d[i + 1..];
      }
    }
  }

  /** Cutting member `i` out cuts its key out of the key sequence. */
  lemma RemoveNames(d: Doc, i: nat)
    requires i < |d|
    ensures Names(d[..i] + d[i + 1..]) == Names(d)[..i] + Names(d)[i + 1..]
  {
    var r := d[..i] + d[i + 1..];
    forall j | 0 <= j < |r| ensures Names(r)[j] == (Names(d)[..i] + Names(d)[i + 1..])[j] {
      if j < i { assert r[j] == d[j]; } else { assert r[j] == d[j + 1]; }
    }
  }

  /** Removing a member keeps keys distinct. */
  lemma RemoveKeepsDistinct(d: Doc, name: Bytes)
    requires Distinct(d)
    ensures Distinct(Remove(d, name))
  {
    var i := Find(d, name);
    if i < |d| {
      var r := Remove(d, name);
      forall a, b | 0 <= a < b < |r| ensures r[a].name != r[b].name {
        var a' := if a < i then a else a + 1;
        var b' := if b < i then b else b + 1;
        assert r[a] == d[a'] && r[b] == d[b'];
      }
    }
  }

  /** With distinct keys, after `doc.remove(name)` the key is gone and every
      other key reads as before. */
  lemma RemoveReads(d: Doc, name: Bytes)
    requires Distinct(d)
    ensures !Has(Remove(d, name), name)
    ensures forall k :: k != name ==> Get(Remove(d, name), k) == Get(d, k)
  {
    var r := Remove(d, name);
    var i := Find(d, name);
    if i < |d| {
      assert forall j :: 0 <= j < i ==> r[j] == d[j];
      assert forall j :: i <= j < |r| ==> r[j] == d[j + 1];
      HasMeansMember(r, name);
      forall k | k != name ensures Get(r, k) == Get(d, k) {
        var f := Find(d, k);
        if f < |d| {
          if f < i {
            assert r[f].name == k;
          } else {
            assert r[f - 1].name == k;
          }
        } else {
          HasMeansMember(r, k);
          HasMeansMember(d, k);
        }
      }
    }
  }

  /** The secret-byte total of two documents joined is the sum of their totals. */
  lemma {:induction false} SecretBytesAppend(a: Doc, b: Doc)
    ensures SecretBytes(a + b) == SecretBytes(a) + SecretBytes(b)
  {
    if |b| == 0 {
      assert a + b == a;
    } else {
      var b' := b[..|b| - 1];
      assert (a + b)[..|a + b| - 1] == a + b';
      SecretBytesAppend(a, b');
    }
  }

  /** The total of a document with one member in the middle. */
  lemma SecretBytesSplice(a: Doc, e: Entry, b: Doc)
    ensures SecretBytes(a + [e] + b) == SecretBytes(a) + |e.secret| + SecretBytes(b)
  {
    SecretBytesAppend(a + [e], b);
    SecretBytesAppend(a, [e]);
    assert SecretBytes([e]) == |e.secret| by {
      assert [e][..0] == [];
    }
  }

  /** `Set` changes the total by the new secret's length, less the replaced one's. */
  lemma SecretBytesSet(d: Doc, name: Bytes, secret: Bytes)
    ensures !Has(d, name) ==> SecretBytes(Set(d, name, secret)) == SecretBytes(d) + |secret|
    ensures Has(d, name) ==>
              SecretBytes(Set(d, name, secret)) + |d[Find(d, name)].secret| == SecretBytes(d) + |secret|
  {
    var i := Find(d, name);
    var e := Entry(name, secret);
    if i < |d| {
      assert d == d[..i] + [d[i]] + d[i + 1..];
      assert Set(d, name, secret) == d[..i] + [e] + d[i + 1..];
      SecretBytesSplice(d[..i], d[i], d[i + 1..]);
      SecretBytesSplice(d[..i], e, d[i + 1..]);
    } else {
      SecretBytesSplice(d, e, []);
      assert d + [e] + [] == d + [e];
      assert SecretBytes([]) == 0;
    }
  }

  /** Removing a present key lowers the total by exactly that member's secret length. */
  lemma SecretBytesRemove(d: Doc, name: Bytes)
    ensures Has(d, name) ==>
              SecretBytes(Remove(d, name)) + |d[Find(d, name)].secret| == SecretBytes(d)
  {
    var i := Find(d, name);
    if i < |d| {
      assert d == d[..i] + [d[i]] + d[i + 1..];
      SecretBytesSplice(d[..i], d[i], d[i + 1..]);
      SecretBytesAppend(d[..i], d[i + 1..]);
    }
  }
}

=== FILE: hex.dfy ===
/** The `%02x` rendering that `hashPin` applies to each byte of the digest,
    and its inverse. Characters are ASCII codes: '0' is 48, 'a' is 97. */
module Hex {
  import opened Common

  /** The characters `%x` prints: '0'-'9' and 'a'-'f'. */
  predicate IsHexDigit(c: byte) {
    48 <= c <= 57 || 97 <= c <= 102
  }

  /** The value of one hexadecimal digit. */
  function DigitValue(c: byte): (n: nat)
    requires IsHexDigit(c)
    ensures n < 16
  {
    if c <= 57 then c - 48 else c - 87
  }

  /** The lowercase digit `%x` prints for a nibble; it reads back as that nibble. */
  function HexDigit(n: nat): (c: byte)
    requires n < 16
    ensures IsHexDigit(c)
    ensures DigitValue(c) == n
    ensures n < 10 ==> 48 <= c <= 57
    ensures 10 <= n ==> 97 <= c <= 102
  {
    if n < 10 then 48 + n else 87 + n
  }

  /** `sprintf(str, "%02x", b)`: exactly two digits, high nibble first. */
  function ByteHex(b: byte): (s: Bytes)
    ensures |s| == 2
    ensures IsHexDigit(s[0]) && IsHexDigit(s[1])
    ensures 16 * DigitValue(s[0]) + DigitValue(s[1]) == b
  {
    [HexDigit(b / 16), HexDigit(b % 16)]
  }

  /** The string the loop in `hashPin` builds: `ByteHex` of every byte, in order. */
  function Render(d: Bytes): (s: Bytes)
    ensures |s| == 2 * |d|
  {
    if |d| == 0 then [] else Render(d[..|d| - 1]) + ByteHex(d[|d| - 1])
  }

  /** Byte `i` of the digest becomes characters `2i` (high nibble) and
      `2i + 1` (low nibble), and every character is a hex digit. */
  lemma {:induction false} RenderDigits(d: Bytes)
    ensures forall i :: 0 <= i < |d| ==>
              Render(d)[2 * i] == HexDigit(d[i] / 16) && Render(d)[2 * i + 1] == HexDigit(d[i] % 16)
    ensures forall k :: 0 <= k < |Render(d)| ==> IsHexDigit(Render(d)[k])
  {
    if |d| > 0 {
      var front := d[..|d| - 1];
      RenderDigits(front);
      assert Render(d) == Render(front) + ByteHex(d[|d| - 1]);
      forall i | 0 <= i < |d|
        ensures Render(d)[2 * i] == HexDigit(d[i] / 16) && Render(d)[2 * i + 1] == HexDigit(d[i] % 16)
      {
        if i < |front| {
          assert d[i] == front[i];
        }
      }
    }
  }

  /** Reads a rendering back: pairs of hex digits, high nibble first. */
  function Parse(s: Bytes): Option<Bytes>
  {
    if |s| == 0 then Some([])
    else if |s| == 1 || !IsHexDigit(s[|s| - 2]) || !IsHexDigit(s[|s| - 1]) then None
    else
      match Parse(s[..|s| - 2])
      case None => None
      case Some(front) => Some(front + [16 * DigitValue(s[|s| - 2]) + DigitValue(s[|s| - 1])])
  }

  /** Rendering one more byte appends its two digits. */
  lemma RenderAppend(front: Bytes, b: byte)
    ensures Render(front + [b]) == Render(front) + ByteHex(b)
  {
    assert (front + [b])[..|front|] == front;
  }

  /** Two digits read back as a byte render as those same two digits. */
  lemma DigitPair(c1: byte, c2: byte)
    requires IsHexDigit(c1) && IsHexDigit(c2)
    ensures 16 * DigitValue(c1) + DigitValue(c2) < 256
    ensures ByteHex(16 * DigitValue(c1) + DigitValue(c2)) == [c1, c2]
  {
    var hi, lo := DigitValue(c1), DigitValue(c2);
    assert (16 * hi + lo) / 16 == hi && (16 * hi + lo) % 16 == lo;
  }

  /** Whatever parses is the rendering of what it parses to. */
  lemma {:induction false} ParseSound(s: Bytes)
    ensures Parse(s).Some? ==> Render(Parse(s).value) == s
  {
    if |s| >= 2 && Parse(s).Some? {
      var t := s[..|s| - 2];
      ParseSound(t);
      var front := Parse(t).value;
      DigitPair(s[|s| - 2], s[|s| - 1]);
      var b: byte := 16 * DigitValue(s[|s| - 2]) + DigitValue(s[|s| - 1]);
      assert Parse(s).value == front + [b];
      RenderAppend(front, b);
      assert t + [s[|s| - 2], s[|s| - 1]] == s;
    }
  }

  /** Appending the two digits of a byte to a parsable string appends that byte. */
  lemma ParseAppend(s: Bytes, front: Bytes, b: byte)
    requires Parse(s) == Some(front)
    ensures Parse(s + ByteHex(b)) == Some(front + [b])
  {
    var t := s + ByteHex(b);
    assert t[..|t| - 2] == s;
    assert t[|t| - 2] == HexDigit(b / 16) && t[|t| - 1] == HexDigit(b % 16);
  }

  /** One more byte keeps the rendering parsable back to the bytes. */
  lemma ParseRenderSnoc(front: Bytes, last: byte)
    requires Parse(Render(front)) == Some(front)
    ensures Parse(Render(front + [last])) == Some(front + [last])
  {
    RenderAppend(front, last);
    ParseAppend(Render(front), front, last);
  }

  /** Parsing a rendering gives back the bytes rendered. */
  lemma {:induction false} ParseRender(d: Bytes)
    ensures Parse(Render(d)) == Some(d)
  {
    if |d| > 0 {
      var front, last := d[..|d| - 1], d[|d| - 1];
      assert d == front + [last];
      ParseRender(front);
      ParseRenderSnoc(front, last);
    }
  }

  /** Two digests with the same rendering are the same digest. */
  lemma RenderInjective(a: Bytes, b: Bytes)
    requires Render(a) == Render(b)
    ensures a == b
  {
    ParseRender(a);
    ParseRender(b);
  }

  /** The loop of `hashPin`: appends `%02x` of each digest byte to an initially
      empty string. */
  method RenderLoop(d: Bytes) returns (s: Bytes)
    ensures |s| == 2 * |d|
    ensures Parse(s) == Some(d)
  {
    s := [];
    for i := 0 to |d|
      invariant s == Render(d[..i])
    {
      assert d[..i + 1][..i] == d[..i];
      s := s + ByteHex(d[i]);
    }
    assert d[..|d|] == d;
    ParseRender(d);
  }
}

=== FILE: pin_gate.dfy ===
/** The PIN gate of src/main.cpp: /pin.txt holds the lowercase hex rendering
    of the SHA-256 digest of the PIN. SHA-256 is a parameter of the model. */
module PinGate {
  import opened Common
  import Hex

  /** A SHA-256 digest: 32 bytes. */
  type Digest = d: Bytes | |d| == 32 witness seq(32, i => 0)

  /** The digest function; nothing about it is assumed beyond its type. */
  type Sha256 = Bytes -> Digest

  /** `hashPin`: 64 lowercase hex digits, from which the digest can be read back. */
  function HashPin(sha: Sha256, pin: Bytes): (h: Bytes)
    ensures |h| == 64
    ensures forall k :: 0 <= k < |h| ==> Hex.IsHexDigit(h[k])
    ensures Hex.Parse(h) == Some(sha(pin))
  {
    Hex.ParseRender(sha(pin));
    Hex.RenderDigits(sha(pin));
    Hex.Render(sha(pin))
  }

  /** `isPinSet`: /pin.txt exists. */
  predicate IsPinSet(pinFile: Option<Bytes>)
  {
    pinFile.Some?
  }

  /** `createPin`: writes the rendering of the PIN's digest to /pin.txt. If
      the file cannot be opened it is left as it was; otherwise it holds the
      part of the rendering that reached it. */
  function CreatePin(sha: Sha256, pinFile: Option<Bytes>, pin: Bytes, w: WriteFault): (r: Option<Bytes>)
    ensures w.OpenFails? ==> r == pinFile
    ensures !w.OpenFails? ==> r.Some? && r.value <= HashPin(sha, pin)
    ensures r == Some(HashPin(sha, pin)) <==> (w.WriteOk? || (w.Stops? && w.limit >= 64) || (w.OpenFails? && pinFile == Some(HashPin(sha, pin))))
  {
    if w.OpenFails? then pinFile
    else
      var h := HashPin(sha, pin);
      var n := Written(w, |h|);
      assert |h[..n]| == n;
      assert h[..n] == h <==> n == 64;
      assert n == 64 <==> w.WriteOk? || (w.Stops? && w.limit >= 64);
      Some(h[..n])
  }

  /** `verifyPin`: reads /pin.txt and compares it, as a whole string, with
      the rendering of the candidate's digest; an unreadable file fails. */
  function VerifyPin(sha: Sha256, pinFile: Option<Bytes>, opens: bool, pin: Bytes): (ok: bool)
    ensures ok ==> IsPinSet(pinFile) && opens
  {
    pinFile.Some? && opens && pinFile.value == HashPin(sha, pin)
  }

  // ---------------------------------------------------------------- lemmas

  /** A PIN verifies exactly when /pin.txt can be read and holds the
      rendering of that PIN's digest, and then the file determines the
      digest: two PINs accepted by the same file have the same digest. */
  lemma VerifyMeansDigestMatch(sha: Sha256, pinFile: Option<Bytes>, opens: bool, pin: Bytes, other: Bytes)
    ensures VerifyPin(sha, pinFile, opens, pin) <==>
              opens && pinFile.Some? && Hex.Parse(pinFile.value) == Some(sha(pin)) && |pinFile.value| == 64
    ensures VerifyPin(sha, pinFile, opens, pin) && VerifyPin(sha, pinFile, opens, other) ==> sha(pin) == sha(other)
  {
    if opens && pinFile.Some? && Hex.Parse(pinFile.value) == Some(sha(pin)) {
      Hex.ParseSound(pinFile.value);
    }
    if VerifyPin(sha, pinFile, opens, pin) && VerifyPin(sha, pinFile, opens, other) {
      Hex.RenderInjective(sha(pin), sha(other));
    }
  }

  /** Creating a PIN with a complete write makes that PIN verify. */
  lemma CreateThenVerify(sha: Sha256, pinFile: Option<Bytes>, pin: Bytes, w: WriteFault)
    requires w.WriteOk? || (w.Stops? && w.limit >= 64)
    ensures VerifyPin(sha, CreatePin(sha, pinFile, pin, w), true, pin)
  {
  }

  /** A rewrite of /pin.txt cut short leaves a PIN set that no PIN verifies. */
  lemma ShortPinWriteLocksOut(sha: Sha256, pinFile: Option<Bytes>, pin: Bytes, w: WriteFault, any: Bytes, opens: bool)
    requires w.Stops? && w.limit < 64
    ensures IsPinSet(CreatePin(sha, pinFile, pin, w))
    ensures !VerifyPin(sha, CreatePin(sha, pinFile, pin, w), opens, any)
  {
  }
}

=== FILE: session.dfy ===
/** The main loop of src/main.cpp as a state machine. One pass handles one
    input line — or, for `create`, `get` and `delete`, the command line and
    the one or two lines its dialog waits for — and answers with a `Reply`.
    Prompts, banners and the separator line are not modelled; each reply
    names the message the pass ends with. */
module Session {
  import opened Common
  import opened Document
  import opened Storage
  import opened CredentialStore
  import PinGate

  /** The collaborators the model leaves abstract. */
  datatype Platform = Platform(sha: PinGate.Sha256, json: Json)

  const CreateCmd: Bytes := [99, 114, 101, 97, 116, 101]   // "create"
  const GetCmd: Bytes := [103, 101, 116]                   // "get"
  const DeleteCmd: Bytes := [100, 101, 108, 101, 116, 101] // "delete"
  const ListCmd: Bytes := [108, 105, 115, 116]             // "list"
  const InfoCmd: Bytes := [105, 110, 102, 111]             // "info"

  /** One of the five command names, matched exactly. */
  predicate IsCommand(line: Bytes)
  {
    line == CreateCmd || line == GetCmd || line == DeleteCmd || line == ListCmd || line == InfoCmd
  }

  /** Process state: the two files, the static `authenticated` of `loop`, and
      the global `firstAuthenticated`, which is true until the first failed
      PIN attempt. Nothing else survives from one pass to the next. */
  datatype World = World(
    pinFile: Option<Bytes>,
    docFile: DocFile,
    authenticated: bool,
    firstAuthenticated: bool)

  /** The state `setup` leaves for the first pass. */
  function Boot(pinFile: Option<Bytes>, docFile: DocFile): World
  {
    World(pinFile, docFile, false, true)
  }

  /** One line read by `Serial.readStringUntil('\n')`, with the faults the
      pass it starts meets. */
  datatype Input = Input(line: Bytes, io: Faults)

  datatype Reply =
    | NeedPinFirst                          // a command name while no PIN is set
    | PinCreated                            // any other line while no PIN is set
    | AuthOk                                // the PIN verified
    | Welcome                               // the first failed attempt of the process
    | InvalidPin                            // every later failed attempt
    | NameTaken                             // create: the dialog's own probe found the key
    | CreateFinished(outcome: SaveOutcome)  // create: "Password saved successfully!" after any outcome
    | ShowSecret(secret: Bytes)             // get: a non-empty value
    | SecretNotFound(note: GetNote)         // get: "Password not found"
    | DeleteFinished(deleted: bool)
    | ShowList(listing: ListOutcome)
    | ShowInfo(counters: Counters)
    | InvalidCommand

  /** Replies that only the authenticated branch of `loop` produces. */
  predicate IsCommandReply(r: Reply)
  {
    !(r.NeedPinFirst? || r.PinCreated? || r.AuthOk? || r.Welcome? || r.InvalidPin?)
  }

  /** A pass either completes, having used `used` lines, or waits forever in
      a dialog for a line that never comes. */
  datatype StepResult = Blocked | Done(reply: Reply, world: World, used: nat)

  /** The authenticated branch: dispatch on the five command names. */
  function Command(p: Platform, w: World, inputs: seq<Input>): (r: StepResult)
    requires |inputs| > 0
    ensures r.Done? ==> 1 <= r.used <= |inputs| && IsCommandReply(r.reply)
    ensures r.Done? ==> r.world.pinFile == w.pinFile && r.world.authenticated == w.authenticated
    ensures r.Done? ==> r.world.firstAuthenticated == w.firstAuthenticated
  {
    var line, io := inputs[0].line, inputs[0].io;
    if line == CreateCmd then
      if |inputs| < 2 then Blocked
      else
        var name := inputs[1].line;
        if PasswordExists(p.json, w.docFile, io.readOpens, name) then Done(NameTaken, w, 2)
        else if |inputs| < 3 then Blocked
        else
          var saved := SavePassword(p.json, w.docFile, name, inputs[2].line, io);
          Done(CreateFinished(saved.0), w.(docFile := saved.1), 3)
    else if line == GetCmd then
      if |inputs| < 2 then Blocked
      else
        var got := GetPassword(p.json, w.docFile, io.readOpens, inputs[1].line);
        Done(if |got.value| > 0 then ShowSecret(got.value) else SecretNotFound(got.note), w, 2)
    else if line == DeleteCmd then
      if |inputs| < 2 then Blocked
      else
        var deleted := DeletePassword(p.json, w.docFile, inputs[1].line, io);
        Done(DeleteFinished(deleted.0), w.(docFile := deleted.1), 2)
    else if line == ListCmd then
      Done(ShowList(ListPasswords(p.json, w.docFile, io.readOpens)), w, 1)
    else if line == InfoCmd then
      Done(ShowInfo(StorageCounters(p.json, w.docFile, io.readOpens)), w, 1)
    else
      Done(InvalidCommand, w, 1)
  }

  /** One pass of `loop`: no PIN file, then not authenticated, then commands. */
  function Step(p: Platform, w: World, inputs: seq<Input>): (r: StepResult)
    requires |inputs| > 0
    ensures r.Done? ==> 1 <= r.used <= |inputs|
  {
    var line, io := inputs[0].line, inputs[0].io;
    if !PinGate.IsPinSet(w.pinFile) then
      if IsCommand(line) then Done(NeedPinFirst, w, 1)
      else Done(PinCreated, w.(pinFile := PinGate.CreatePin(p.sha, w.pinFile, line, io.write)), 1)
    else if !w.authenticated then
      if PinGate.VerifyPin(p.sha, w.pinFile, io.readOpens, line) then Done(AuthOk, w.(authenticated := true), 1)
      else if w.firstAuthenticated then Done(Welcome, w.(firstAuthenticated := false), 1)
      else Done(InvalidPin, w, 1)
    else
      Command(p, w, inputs)
  }

  /** Passes of `loop` over a finite input, until it runs out or a dialog waits. */
  function Run(p: Platform, w: World, inputs: seq<Input>): (r: (World, seq<Reply>))
    ensures |r.1| <= |inputs|
    decreases |inputs|
  {
    if |inputs| == 0 then (w, [])
    else
      match Step(p, w, inputs)
      case Blocked => (w, [])
      case Done(reply, w', n) =>
        var rest := Run(p, w', inputs[n..]);
        (rest.0, [reply] + rest.1)
  }

  /** One completed pass followed by the rest of the run. */
  lemma RunStep(p: Platform, w: World, inputs: seq<Input>, reply: Reply, w': World, n: nat)
    requires |inputs| > 0 && Step(p, w, inputs) == Done(reply, w', n)
    ensures Run(p, w, inputs) == (Run(p, w', inputs[n..]).0, [reply] + Run(p, w', inputs[n..]).1)
  {
  }

  /** How many welcome banners a sequence of replies shows. */
  function Welcomes(rs: seq<Reply>): nat
  {
    if |rs| == 0 then 0 else (if rs[0].Welcome? then 1 else 0) + Welcomes(rs[1..])
  }

  // ---------------------------------------------------------------- lemmas

  /** While no PIN is set, the five command names are refused and change
      nothing, and any other line becomes the PIN: after a complete write it
      is the PIN that verifies. */
  lemma NoPinTurnsLineIntoPin(p: Platform, w: World, inputs: seq<Input>)
    requires |inputs| > 0 && !PinGate.IsPinSet(w.pinFile)
    ensures IsCommand(inputs[0].line) ==> Step(p, w, inputs) == Done(NeedPinFirst, w, 1)
    ensures !IsCommand(inputs[0].line) ==>
              && Step(p, w, inputs).Done?
              && Step(p, w, inputs).reply == PinCreated
              && Step(p, w, inputs).world.docFile == w.docFile
              && Step(p, w, inputs).world.authenticated == w.authenticated
    ensures Step(p, w, inputs).Done? ==> Step(p, w, inputs).world.firstAuthenticated == w.firstAuthenticated
    ensures var wf := inputs[0].io.write;
      !IsCommand(inputs[0].line) && (wf.WriteOk? || (wf.Stops? && wf.limit >= 64)) ==>
        PinGate.VerifyPin(p.sha, Step(p, w, inputs).world.pinFile, true, inputs[0].line)
  {
    var wf := inputs[0].io.write;
    if !IsCommand(inputs[0].line) && (wf.WriteOk? || (wf.Stops? && wf.limit >= 64)) {
      PinGate.CreateThenVerify(p.sha, w.pinFile, inputs[0].line, inputs[0].io.write);
    }
  }

  /** `authenticated` is set only by a pass whose line verified against a
      set PIN. */
  lemma AuthenticationNeedsVerifiedPin(p: Platform, w: World, inputs: seq<Input>)
    requires |inputs| > 0 && !w.authenticated
    requires Step(p, w, inputs).Done? && Step(p, w, inputs).world.authenticated
    ensures Step(p, w, inputs).reply == AuthOk
    ensures PinGate.IsPinSet(w.pinFile)
    ensures PinGate.VerifyPin(p.sha, w.pinFile, inputs[0].io.readOpens, inputs[0].line)
  {
  }

  /** Commands run only with a PIN set and the session authenticated; no
      other pass touches the credential document. */
  lemma CommandsNeedSession(p: Platform, w: World, inputs: seq<Input>)
    requires |inputs| > 0 && Step(p, w, inputs).Done?
    requires IsCommandReply(Step(p, w, inputs).reply) || Step(p, w, inputs).world.docFile != w.docFile
    ensures PinGate.IsPinSet(w.pinFile) && w.authenticated
  {
  }

  /** A line that does not verify against a set PIN leaves the session
      locked: the first such failure of the process shows the welcome banner
      and clears `firstAuthenticated`, and every later one shows "Invalid PIN". */
  lemma FailedPinAttempt(p: Platform, w: World, inputs: seq<Input>)
    requires |inputs| > 0 && PinGate.IsPinSet(w.pinFile) && !w.authenticated
    requires !PinGate.VerifyPin(p.sha, w.pinFile, inputs[0].io.readOpens, inputs[0].line)
    ensures Step(p, w, inputs)
         == Done(if w.firstAuthenticated then Welcome else InvalidPin, w.(firstAuthenticated := false), 1)
  {
  }

  /** Once authenticated, the process stays authenticated: nothing clears the flag. */
  lemma {:induction false} AuthenticatedStaysSet(p: Platform, w: World, inputs: seq<Input>)
    requires w.authenticated
    ensures Run(p, w, inputs).0.authenticated
    decreases |inputs|
  {
    if |inputs| > 0 {
      match Step(p, w, inputs)
      case Blocked =>
      case Done(_, w', n) =>
        AuthenticatedStaysSet(p, w', inputs[n..]);
    }
  }

  /** Once /pin.txt exists the loop never rewrites it. */
  lemma {:induction false} PinNeverChangesOnceSet(p: Platform, w: World, inputs: seq<Input>)
    requires PinGate.IsPinSet(w.pinFile)
    ensures Run(p, w, inputs).0.pinFile == w.pinFile
    decreases |inputs|
  {
    if |inputs| > 0 {
      match Step(p, w, inputs)
      case Blocked =>
      case Done(_, w', n) =>
        PinNeverChangesOnceSet(p, w', inputs[n..]);
    }
  }

  /** A run that never authenticates leaves the credential document as it was. */
  lemma {:induction false} StoreUntouchedUntilAuthenticated(p: Platform, w: World, inputs: seq<Input>)
    requires !Run(p, w, inputs).0.authenticated
    ensures Run(p, w, inputs).0.docFile == w.docFile
    decreases |inputs|
  {
    if |inputs| > 0 {
      match Step(p, w, inputs)
      case Blocked =>
      case Done(_, w', n) =>
        if w'.authenticated {
          AuthenticatedStaysSet(p, w', inputs[n..]);
        }
        StoreUntouchedUntilAuthenticated(p, w', inputs[n..]);
    }
  }

  /** Only the first failed PIN attempt of the process shows the welcome
      banner; every later failure shows "Invalid PIN". A run shows the
      banner exactly once if it clears `firstAuthenticated`, and never
      otherwise; nothing sets the flag again. */
  lemma {:induction false} WelcomeAtMostOnce(p: Platform, w: World, inputs: seq<Input>)
    ensures !w.firstAuthenticated ==> !Run(p, w, inputs).0.firstAuthenticated
    ensures Welcomes(Run(p, w, inputs).1) ==
              (if w.firstAuthenticated && !Run(p, w, inputs).0.firstAuthenticated then 1 else 0)
    decreases |inputs|
  {
    if |inputs| > 0 {
      match Step(p, w, inputs)
      case Blocked =>
      case Done(reply, w', n) =>
        WelcomeAtMostOnce(p, w', inputs[n..]);
        var rest := Run(p, w', inputs[n..]).1;
        assert ([reply] + rest)[1..] == rest;
    }
  }

  /** Every run keeps a well-formed credential document well-formed. */
  lemma {:induction false} RunPreservesWellFormed(p: Platform, w: World, inputs: seq<Input>)
    requires FileWellFormed(w.docFile)
    ensures FileWellFormed(Run(p, w, inputs).0.docFile)
    decreases |inputs|
  {
    if |inputs| > 0 {
      var line, io := inputs[0].line, inputs[0].io;
      if PinGate.IsPinSet(w.pinFile) && w.authenticated && |inputs| >= 2 {
        if line == CreateCmd && |inputs| >= 3 {
          SavePreservesWellFormed(p.json, w.docFile, inputs[1].line, inputs[2].line, io);
        } else if line == DeleteCmd {
          DeletePreservesWellFormed(p.json, w.docFile, inputs[1].line, io);
        }
      }
      match Step(p, w, inputs)
      case Blocked =>
      case Done(_, w', n) =>
        RunPreservesWellFormed(p, w', inputs[n..]);
    }
  }

  /** The create dialog announces success after every outcome of the save:
      a 33-byte name is refused by the store, yet the pass ends with the
      success message. */
  lemma CreateAnnouncesSuccessRegardless(p: Platform, w: World, secret: Bytes, io: Faults, io2: Faults, io3: Faults)
    requires PinGate.IsPinSet(w.pinFile) && w.authenticated && FileWellFormed(w.docFile)
    ensures var name: Bytes := seq(33, i => 97);
      Step(p, w, [Input(CreateCmd, io), Input(name, io2), Input(secret, io3)])
        == Done(CreateFinished(Rejected(NameTooLong)), w, 3)
  {
  }

  /** A stored empty secret is indistinguishable from a missing one: `get`
      reports it as not found. */
  lemma EmptySecretShowsNotFound(p: Platform, w: World, d: Doc, name: Bytes, io: Faults, io2: Faults)
    requires PinGate.IsPinSet(w.pinFile) && w.authenticated
    requires w.docFile == Stored(d) && Get(d, name) == Some([])
    requires io.readOpens && p.json.fitsSmallPool(d)
    ensures Step(p, w, [Input(GetCmd, io), Input(name, io2)]) == Done(SecretNotFound(Quiet), w, 2)
  {
  }

  // ------------------------------------------- one pass of each kind, unfolded

  /** A pass that verifies the PIN. */
  lemma AuthStep(p: Platform, w: World, line: Bytes, io: Faults, rest: seq<Input>)
    requires PinGate.IsPinSet(w.pinFile) && !w.authenticated
    requires PinGate.VerifyPin(p.sha, w.pinFile, io.readOpens, line)
    ensures Step(p, w, [Input(line, io)] + rest) == Done(AuthOk, w.(authenticated := true), 1)
  {
  }

  /** The one-line commands: `list` and `info` answer with the listing and
      the counters, and any line that is not a command name is refused as an
      invalid command. None of them changes the state. */
  lemma OneLineCommands(p: Platform, w: World, line: Bytes, io: Faults, rest: seq<Input>)
    requires PinGate.IsPinSet(w.pinFile) && w.authenticated
    ensures line == ListCmd ==>
              Step(p, w, [Input(line, io)] + rest) == Done(ShowList(ListPasswords(p.json, w.docFile, io.readOpens)), w, 1)
    ensures line == InfoCmd ==>
              Step(p, w, [Input(line, io)] + rest) == Done(ShowInfo(StorageCounters(p.json, w.docFile, io.readOpens)), w, 1)
    ensures !IsCommand(line) ==> Step(p, w, [Input(line, io)] + rest) == Done(InvalidCommand, w, 1)
  {
  }

  /** A `create` dialog whose own probe finds the name stops after the name
      line and changes nothing. */
  lemma CreateNameTaken(p: Platform, w: World, name: Bytes, io: Faults, io2: Faults, rest: seq<Input>)
    requires PinGate.IsPinSet(w.pinFile) && w.authenticated
    requires PasswordExists(p.json, w.docFile, io.readOpens, name)
    ensures Step(p, w, [Input(CreateCmd, io), Input(name, io2)] + rest) == Done(NameTaken, w, 2)
  {
    var inputs := [Input(CreateCmd, io), Input(name, io2)] + rest;
    assert inputs[0].line == CreateCmd && inputs[1].line == name;
  }

  /** A complete `create` dialog whose probe does not find the name. */
  lemma CreateStep(p: Platform, w: World, name: Bytes, secret: Bytes, io: Faults, io2: Faults, io3: Faults, rest: seq<Input>)
    requires PinGate.IsPinSet(w.pinFile) && w.authenticated
    requires !PasswordExists(p.json, w.docFile, io.readOpens, name)
    ensures var saved := SavePassword(p.json, w.docFile, name, secret, io);
      Step(p, w, [Input(CreateCmd, io), Input(name, io2), Input(secret, io3)] + rest)
        == Done(CreateFinished(saved.0), w.(docFile := saved.1), 3)
  {
    var inputs := [Input(CreateCmd, io), Input(name, io2), Input(secret, io3)] + rest;
    assert inputs[0].line == CreateCmd && inputs[1].line == name && inputs[2].line == secret;
  }

  /** A complete `get` dialog. */
  lemma GetStep(p: Platform, w: World, name: Bytes, io: Faults, io2: Faults, rest: seq<Input>)
    requires PinGate.IsPinSet(w.pinFile) && w.authenticated
    ensures var got := GetPassword(p.json, w.docFile, io.readOpens, name);
      Step(p, w, [Input(GetCmd, io), Input(name, io2)] + rest)
        == Done(if |got.value| > 0 then ShowSecret(got.value) else SecretNotFound(got.note), w, 2)
  {
    var inputs := [Input(GetCmd, io), Input(name, io2)] + rest;
    assert inputs[0].line == GetCmd && inputs[1].line == name;
  }

  /** A complete `delete` dialog. */
  lemma DeleteStep(p: Platform, w: World, name: Bytes, io: Faults, io2: Faults, rest: seq<Input>)
    requires PinGate.IsPinSet(w.pinFile) && w.authenticated
    ensures var deleted := DeletePassword(p.json, w.docFile, name, io);
      Step(p, w, [Input(DeleteCmd, io), Input(name, io2)] + rest)
        == Done(DeleteFinished(deleted.0), w.(docFile := deleted.1), 2)
  {
    var inputs := [Input(DeleteCmd, io), Input(name, io2)] + rest;
    assert inputs[0].line == DeleteCmd && inputs[1].line == name;
  }

  // ------------------------------------------------------------ walk-through

  const Hunter2: Bytes := [104, 117, 110, 116, 101, 114, 50] // "hunter2"
  const Alice: Bytes := [97, 108, 105, 99, 101]              // "alice"
  const S3cret: Bytes := [115, 51, 99, 114, 101, 116]        // "s3cret"

  /** The lines typed in the walk-through of a first session, every pass
      seeing the same storage behaviour `io`: the new PIN, then the lines
      left for the passes that follow. */
  function FirstSessionInputs(io: Faults): seq<Input>
  {
    [Input(Hunter2, io)] + AfterPin(io)
  }

  /** The same PIN again, to unlock the session. */
  function AfterPin(io: Faults): seq<Input>
  {
    [Input(Hunter2, io)] + AfterUnlock(io)
  }

  /** `create`, then alice's name and secret. */
  function AfterUnlock(io: Faults): seq<Input>
  {
    [Input(CreateCmd, io), Input(Alice, io), Input(S3cret, io)] + AfterCreate(io)
  }

  /** `get` alice. */
  function AfterCreate(io: Faults): seq<Input>
  {
    [Input(GetCmd, io), Input(Alice, io)] + AfterGet(io)
  }

  /** `delete` alice. */
  function AfterGet(io: Faults): seq<Input>
  {
    [Input(DeleteCmd, io), Input(Alice, io)] + AfterDelete(io)
  }

  /** `get` alice once more. */
  function AfterDelete(io: Faults): seq<Input>
  {
    [Input(GetCmd, io), Input(Alice, io)]
  }

  /** What the walk-through of a first session answers, one reply per pass. */
  function FirstSessionReplies(): seq<Reply>
  {
    [PinCreated] + ([AuthOk] + ([CreateFinished(Saved)] +
    ([ShowSecret(S3cret)] + ([DeleteFinished(true)] + [SecretNotFound(Quiet)]))))
  }

  /** Dropping the lines a pass read leaves the lines of the next pass. */
  lemma DropPrefix(a: seq<Input>, b: seq<Input>)
    ensures (a + b)[|a|..] == b
  {
  }

  /** The first two passes of the walk-through: the PIN is created, then
      the same line unlocks the session. */
  lemma WalkthroughUnlocks(p: Platform, io: Faults)
    requires io == Faults(true, WriteOk)
    ensures var pin := Some(PinGate.HashPin(p.sha, Hunter2));
      && Step(p, Boot(None, Absent), FirstSessionInputs(io)) == Done(PinCreated, World(pin, Absent, false, true), 1)
      && Step(p, World(pin, Absent, false, true), AfterPin(io)) == Done(AuthOk, World(pin, Absent, true, true), 1)
  {
    var pin := Some(PinGate.HashPin(p.sha, Hunter2));
    NoPinTurnsLineIntoPin(p, Boot(None, Absent), FirstSessionInputs(io));
    AuthStep(p, World(pin, Absent, false, true), Hunter2, io, AfterUnlock(io));
  }

  /** The four command passes of the walk-through: save, read, delete, read. */
  lemma WalkthroughCommands(p: Platform, io: Faults)
    requires io == Faults(true, WriteOk)
    requires p.json.fitsSmallPool([]) && p.json.fitsSmallPool([Entry(Alice, S3cret)])
    requires p.json.serializedSize([Entry(Alice, S3cret)]) <= MaxDocumentBytes
    ensures var pin := Some(PinGate.HashPin(p.sha, Hunter2));
      && Step(p, World(pin, Absent, true, true), AfterUnlock(io))
           == Done(CreateFinished(Saved), World(pin, Stored([Entry(Alice, S3cret)]), true, true), 3)
      && Step(p, World(pin, Stored([Entry(Alice, S3cret)]), true, true), AfterCreate(io))
           == Done(ShowSecret(S3cret), World(pin, Stored([Entry(Alice, S3cret)]), true, true), 2)
      && Step(p, World(pin, Stored([Entry(Alice, S3cret)]), true, true), AfterGet(io))
           == Done(DeleteFinished(true), World(pin, Stored([]), true, true), 2)
      && Step(p, World(pin, Stored([]), true, true), AfterDelete(io))
           == Done(SecretNotFound(Quiet), World(pin, Stored([]), true, true), 2)
  {
    var pin := Some(PinGate.HashPin(p.sha, Hunter2));
    var w3 := World(pin, Stored([Entry(Alice, S3cret)]), true, true);
    SaveIntoAbsentFile(p.json, Alice, S3cret, io);
    CreateStep(p, World(pin, Absent, true, true), Alice, S3cret, io, io, io, AfterCreate(io));
    assert Find([Entry(Alice, S3cret)], Alice) == 0;
    GetStep(p, w3, Alice, io, io, AfterGet(io));
    assert Remove([Entry(Alice, S3cret)], Alice) == [];
    DeleteStep(p, w3, Alice, io, io, AfterDelete(io));
    GetStep(p, World(pin, Stored([]), true, true), Alice, io, io, []);
    assert AfterDelete(io) + [] == AfterDelete(io);
  }

  /** The walk-through of a first session: with no PIN, "hunter2" becomes
      the PIN and then unlocks the session; alice's secret "s3cret" is saved,
      read back, deleted, and then not found. */
  lemma FirstSessionWalkthrough(p: Platform, io: Faults)
    requires io == Faults(true, WriteOk)
    requires p.json.fitsSmallPool([]) && p.json.fitsSmallPool([Entry(Alice, S3cret)])
    requires p.json.serializedSize([Entry(Alice, S3cret)]) <= MaxDocumentBytes
    ensures |FirstSessionInputs(io)| == 11
    ensures Run(p, Boot(None, Absent), FirstSessionInputs(io))
         == (World(Some(PinGate.HashPin(p.sha, Hunter2)), Stored([]), true, true), FirstSessionReplies())
  {
    var pin := Some(PinGate.HashPin(p.sha, Hunter2));
    var w1 := World(pin, Absent, false, true);
    var w2 := World(pin, Absent, true, true);
    var w3 := World(pin, Stored([Entry(Alice, S3cret)]), true, true);
    var w4 := World(pin, Stored([]), true, true);
    WalkthroughUnlocks(p, io);
    WalkthroughCommands(p, io);

    RunStep(p, w4, AfterDelete(io), SecretNotFound(Quiet), w4, 2);
    assert AfterDelete(io)[2..] == [];
    assert Run(p, w4, []) == (w4, []);
    assert [SecretNotFound(Quiet)] + [] == [SecretNotFound(Quiet)];
    RunStep(p, w3, AfterGet(io), DeleteFinished(true), w4, 2);
    DropPrefix([Input(DeleteCmd, io), Input(Alice, io)], AfterDelete(io));
    RunStep(p, w3, AfterCreate(io), ShowSecret(S3cret), w3, 2);
    DropPrefix([Input(GetCmd, io), Input(Alice, io)], AfterGet(io));
    RunStep(p, w2, AfterUnlock(io), CreateFinished(Saved), w3, 3);
    DropPrefix([Input(CreateCmd, io), Input(Alice, io), Input(S3cret, io)], AfterCreate(io));
    RunStep(p, w1, AfterPin(io), AuthOk, w2, 1);
    DropPrefix([Input(Hunter2, io)], AfterUnlock(io));
    RunStep(p, Boot(None, Absent), FirstSessionInputs(io), PinCreated, w1, 1);
    DropPrefix([Input(Hunter2, io)], AfterPin(io));
  }
}

=== FILE: storage.dfy ===
/** /passwords.json on SPIFFS as the store sees it: the file is absent, holds
    a JSON object, or holds bytes that do not deserialize. ArduinoJson itself
    is not modelled; what the store needs from it is in `Json`. */
module Storage {
  import opened Common
  import opened Document

  /** Length of a serialized JSON object: never below 2, the length of `{}`. */
  type JsonSize = n: nat | n >= 2 witness 2

  /** The facts about ArduinoJson the store depends on. */
  datatype Json = Json(
    /** bytes `serializeJson` produces for a document */
    serializedSize: Doc -> JsonSize,
    /** the document deserializes within a `DynamicJsonDocument(1024)` */
    fitsSmallPool: Doc -> bool,
    /** the document deserializes within a `DynamicJsonDocument(131072)` */
    fitsLargePool: Doc -> bool)

  datatype DocFile = Absent | Stored(doc: Doc) | Corrupt

  /** The two pool sizes the source deserializes with. */
  datatype Pool = Small | Large

  /** What `SPIFFS.open(path, "r")` plus `deserializeJson` yield. */
  datatype Load = NoFile | CannotOpen | ParseError | Loaded(doc: Doc)

  function Fits(json: Json, pool: Pool, d: Doc): bool
  {
    match pool
    case Small => json.fitsSmallPool(d)
    case Large => json.fitsLargePool(d)
  }

  /** One read of the document into a pool of the given size. Only a stored
      document that can be opened and fits the pool loads; an absent file is
      told apart from every other failure. */
  function Read(json: Json, f: DocFile, opens: bool, pool: Pool): (l: Load)
    ensures l.Loaded? <==> f.Stored? && opens && Fits(json, pool, f.doc)
    ensures l.Loaded? ==> l.doc == f.doc
    ensures l.NoFile? <==> f.Absent?
    ensures l.CannotOpen? <==> !f.Absent? && !opens
  {
    if f.Absent? then NoFile
    else if !opens then CannotOpen
    else if f.Corrupt? || !Fits(json, pool, f.doc) then ParseError
    else Loaded(f.doc)
  }

  /** How `SPIFFS.open(path, "w")` and `serializeJson(doc, file)` end:
      not opened, opened but nothing written (`serializeJson` returns 0), or
      a non-zero byte count reported. */
  datatype WriteStatus = NotOpened | NothingWritten | SomeWritten

  /** Rewriting the file with `d`. An unopened file is left as it was; an
      opened one is truncated, so it holds `d` only when every byte of its
      serialization reached it, and otherwise a prefix that is not a JSON
      object. */
  function WriteDoc(json: Json, f: DocFile, d: Doc, w: WriteFault): (r: (WriteStatus, DocFile))
    ensures r.0.NotOpened? <==> w.OpenFails?
    ensures r.0.NotOpened? ==> r.1 == f
    ensures !w.OpenFails? ==> (r.1 == Stored(d) <==> Written(w, json.serializedSize(d)) == json.serializedSize(d))
    ensures !w.OpenFails? && r.1 != Stored(d) ==> r.1 == Corrupt
    ensures r.0.NothingWritten? ==> r.1 == Corrupt
    ensures !w.OpenFails? && r.1 == Stored(d) ==> r.0.SomeWritten?
  {
    if w.OpenFails? then (NotOpened, f)
    else
      var size := json.serializedSize(d);
      var n := Written(w, size);
      var status := if n == 0 then NothingWritten else SomeWritten;
      (status, if n == size then Stored(d) else Corrupt)
  }
}
